=== FILE: README.md ===
# FlatConnecta application state, modelled in Dafny

This project models the state logic of the FlatConnecta rental marketplace front-end (`src/App.jsx`).
That logic is small, sequential and deterministic. What remains once rendering and the hosted-database
insert are stripped away:

- the brokerage fee rule;
- the city / BHK filter of the listing page;
- the admin moderation queue (approve, reject);
- the "List Your Property" submission, with its upload checks and derived fields;
- the role-gated actions and the sign-up / OTP / login state machine.

Each React handler is one pure transition over an immutable `App.State` record. The handler's `setX`
calls become field updates applied in source order. The functions passed to `handleProtectedAction`
become the first-order `App.Action` datatype.

Modules, one concept each:

- `Wrappers`: `Option` and `Result`.
- `JsNumber`: the JavaScript number semantics the code relies on. This covers `parseInt` (white
  space, sign, `0x` prefix, longest digit run, NaN), `===`, `>`, `Math.ceil(x / 2)` and `x || d`,
  over numbers that may be NaN.
- `Sequences`: `Array.prototype.filter` and the order-preserving subsequence relation.
- `Listings`: the `Property` record, `getBrokerage` and the listing filter.
- `Moderation`: removal by id, shared by approval and rejection.
- `Submission`: the post-property form and the record it builds.
- `App`: the state record and every handler that writes one of its fields. It also holds
  `Step` / `Run` over user events and the invariant `Wf`. `Wf` holds in every state the model can
  reach, where each handler is one atomic step. The menu's open/close flag is not part of the record.

## Model

| member | source | states |
|---|---|---|
| `Listings.Brokerage` | src/App.jsx:59-61 | The fee is always 12499 or 16999. It is 16999 exactly when the rent is a number above 50000. A rent of exactly 50000, or a NaN rent, pays 12499. |
| `Listings.BrokerageMonotone` | src/App.jsx:59-61 | A higher rent never pays a lower fee. |
| `Listings.FilterListings` | src/App.jsx:672-676 | The result is an order-preserving subsequence of the active list. Every kept listing matches the city unless the city filter is "All". Every kept listing has a (non-NaN) bhk equal to the parsed BHK filter unless that filter is "All". Every matching listing is kept. The result's length is the number of matching listings, so duplicates are kept as often as they occur. With both filters "All" the whole list is returned. |
| `Listings.FilterByBhk` | src/App.jsx:674 | Choosing the option "k" keeps exactly the city-matching listings whose bhk is the number k. |
| `Listings.FilterByUnparsableBhk` | src/App.jsx:674 | A BHK filter other than "All" that parses to NaN matches no listing, because NaN is `===` to nothing. |
| `Listings.FilterListingsAppend` | src/App.jsx:672-676 | Appending a listing extends the filtered view by that listing exactly when it matches. |
| `Listings.FilterListingsIdempotent` | src/App.jsx:672-676 | Filtering an already filtered list again changes nothing. |
| `Sequences.Filter` | src/App.jsx:1049 | `filter` keeps, in order, exactly the elements that pass the test. The result is a subsequence, every element in it passes, every passing element is in it, and its length is the number of passing elements. |
| `JsNumber.ParseInt` | src/App.jsx:883-886 | An empty or all-white-space string is NaN. A string starting with neither white space, a sign nor a digit is NaN. One starting with a decimal digit and no `0x` prefix is a non-negative number. A leading `+` keeps and a leading `-` negates the magnitude that follows, and NaN stays NaN. The value read is fixed by `JsNumber.ParseIntIgnoresTail`. |
| `JsNumber.ParseIntSkipsWhiteSpace` | src/App.jsx:883-886 | Any run of leading white space leaves the result of `parseInt` unchanged. |
| `JsNumber.ParseSigned` | src/App.jsx:883-886 | After white space, a `+` yields the following magnitude and a `-` its negation, NaN staying NaN. Any other first character leaves the whole string to the magnitude reader. |
| `JsNumber.ParseMagnitude` | src/App.jsx:883-886 | The unsigned part is never negative. It is NaN when it is empty (an empty field or a lone sign) or starts with a non-digit, and a number when it starts with a decimal digit and carries no `0x` prefix. Its value, the longest decimal digit run, is fixed by `JsNumber.ParseIntIgnoresTail`. |
| `JsNumber.OrDefault` | src/App.jsx:886 | `n || 800` is `n` for a non-zero number and 800 for 0 or NaN. |
| `Listings.Matches` | src/App.jsx:673-675 | Both "All" filters accept every listing. An accepted listing has the selected city unless the city filter is "All". It has a non-NaN bhk equal to the parsed BHK filter unless that filter is "All". A listing whose bhk is NaN passes only the "All" BHK filter. Every listing that meets both conditions is accepted, so acceptance is exactly the conjunction. |
| `Submission.OrElse` | src/App.jsx:880 | The default of `location` to `city` in the title is the locality when it is non-empty and the city otherwise. It is empty only when both are. |
| `JsNumber.CeilHalf` | src/App.jsx:885 | `Math.ceil(b / 2)` is the least integer whose double is at least b. It is NaN exactly when b is NaN. |
| `JsNumber.ParseIntOfDecimal` | src/App.jsx:884 | `parseInt` of the decimal rendering of any integer returns that integer. This covers the BHK option values "1" to "4". |
| `JsNumber.DigitPrefixStopsAtNonDigit` | src/App.jsx:883-886 | The digits read are exactly a digit run up to the first non-digit. |
| `JsNumber.MagnitudeIgnoresTail` | src/App.jsx:883-886 | The unsigned part of a decimal rendering followed by any tail that does not start with a digit (nor `x`/`X` after a lone "0") reads as exactly the rendered number. |
| `JsNumber.NegativeIgnoresTail` | src/App.jsx:883-886 | The decimal rendering of a negative integer, followed by any tail not starting with a digit, parses to that integer. |
| `JsNumber.NonNegativeIgnoresTail` | src/App.jsx:883-886 | The decimal rendering of a non-negative integer, followed by any tail not starting with a digit (nor `x`/`X` after a lone "0"), parses to that integer. |
| `JsNumber.ParseIntIgnoresTail` | src/App.jsx:883-886 | The decimal rendering of any integer followed by any tail that does not start with a digit parses to that integer: "1200.5" reads 1200 and "2.5e4" reads 2. After a lone "0" the tail must not start with `x` or `X`, which would begin a hexadecimal literal. |
| `JsNumber.ParseIntOfWord` | src/App.jsx:674 | A string whose first character is not white space, a sign or a digit (such as "All") parses to NaN. |
| `Moderation.WithoutId` | src/App.jsx:1044 | Removal by id drops every entry with that id and keeps all other entries in order, each as often as it occurred. The result's length is the number of entries with another id. It leaves the list unchanged when the id is absent. |
| `Moderation.WithoutIdIdempotent` | src/App.jsx:1049 | Removing the same id twice equals removing it once. |
| `Moderation.WithoutIdCommutes` | src/App.jsx:1049 | Removals of two ids may be applied in either order. |
| `Moderation.WithoutIdRemovesOne` | src/App.jsx:1042-1044 | With unique ids, removing the id of a listing in the list removes exactly that one listing, counted as a multiset. |
| `App.ApproveProperty` | src/App.jsx:1042-1044 | Approval makes the active list equal to the old one with `prop` appended. The pending list becomes the old one with every `prop.id` entry removed. All other pending entries stay, in order and with their multiplicity. Nothing else changes. |
| `App.ApproveMovesListing` | src/App.jsx:1042-1044 | Approving a pending listing with a unique id moves it. The pending list shrinks by one, and the listings across both lists are the same multiset. |
| `App.ApprovedListingVisible` | src/App.jsx:1043 | After approval the listing page shows the old results plus the new listing at the end, exactly when it matches the filters. |
| `App.RejectProperty` | src/App.jsx:1048-1049 | Rejection drops every pending entry with the id and keeps the others in order, with their multiplicity. The active list and everything else are unchanged. Rejecting an absent id changes nothing. |
| `App.RejectTwice` | src/App.jsx:1048-1049 | Rejecting twice equals rejecting once. |
| `App.RejectCommutes` | src/App.jsx:1048-1049 | Rejections of two ids commute. |
| `Submission.Submit` | src/App.jsx:867-877 | A submission is accepted exactly when a video is chosen and the photo list is present and non-empty. A missing video is reported before missing photos. An accepted submission yields the derived record. |
| `Submission.NewProperty` | src/App.jsx:878-891 | The new listing's bhk is the parsed BHK and its bathrooms are ceil(bhk/2). `sqft` is the parsed size, or 800 when the size is NaN or 0. `location` is "locality, city", and `title` uses the locality or, when that is empty, the city. `video` is the file name and `amenities` is ["Gym", "Security"]. |
| `Submission.InitialFormRejected` | src/App.jsx:857-872 | `handleSubmit` refuses the form's initial state with the missing-video error, because no video is chosen. |
| `Submission.SubmittedBhk` | src/App.jsx:884-885 | A listing built from BHK option "k" has bhk k and (k + 1) / 2 bathrooms. |
| `App.SubmitProperty` | src/App.jsx:867-896 | A refused submission leaves the state unchanged. An accepted one appends exactly the new listing to the end of the pending list, returns to the home view and changes nothing else. |
| `App.VisibleListings` | src/App.jsx:669-676 | A signed-in seller gets the notice and no listings. Everyone else gets exactly the filtered active list for the current filters. That is a subsequence of the active list, and the whole list under "All"/"All". |
| `App.RunAction` | src/App.jsx:840 | A deferred action changes only the view or the inquiry-dialog flags. A navigation action sets the view alone and leaves both inquiry flags unchanged. |
| `App.ProtectedAction` | src/App.jsx:95-109 | A signed-in user of another role changes nothing. A user of the role gets the action. With nobody signed in, the action is stored, the target role is set, the dialog opens in sign-up mode with the OTP step cleared, and nothing else changes. |
| `App.InsertTable` | src/App.jsx:118-119 | The insert targets "buyers" exactly for a buyer and "sellers" exactly for a seller. With no user data, no table is chosen. |
| `App.LoginSuccess` | src/App.jsx:112-140 | Login sets the user, closes the dialog, and clears the OTP step, the captured details and the deferred action. The listings are untouched. A deferred action is applied exactly once to the signed-in state. Without one, the view is unchanged. |
| `App.LoginSuccessOnce` | src/App.jsx:136-139 | With the handler taken as one step, a second login success finds no deferred action to run again. |
| `App.RequestOtp` | src/App.jsx:249-260 | Requesting an OTP captures the entered details under the dialog's target role and shows the OTP step. Nothing else changes. |
| `App.VerifyOtp` | src/App.jsx:262-265 | Verifying signs in exactly the captured details. It closes the dialog and clears the OTP step, the captured details and the deferred action. The listings, filters, dialog mode and role, and admin flag are untouched. A deferred action is applied exactly once to the signed-in state. Without one, the view and inquiry flags are unchanged. |
| `App.OtpCodeIgnored` | src/App.jsx:262-265 | Any two typed codes give the same resulting state. No code is compared. |
| `App.Login` | src/App.jsx:267-275 | The login form signs in the fixed returning user under the dialog's role, whatever phone was typed. It closes the dialog and clears the OTP step, the captured details and the deferred action. The listings, filters, dialog mode and role, and admin flag are untouched. A deferred action is applied exactly once to the signed-in state. Without one, the view and inquiry flags are unchanged. |
| `App.Logout` | src/App.jsx:142-145 | Logout clears the user, returns home and changes nothing else. |
| `App.OpenSignup` | src/App.jsx:184-190 | The sign-up buttons set the target role, switch the dialog to sign-up, clear the OTP step and open the dialog. |
| `App.ToggleAuthMode` | src/App.jsx:343 | The mode switch flips between sign-up and login and clears the OTP step. |
| `App.Step` | src/App.jsx:95-145 | Every handler, taken as one atomic step, keeps `Wf`. The OTP step is shown only with captured details, and a deferred action never survives a login. |
| `App.Run` | src/App.jsx:72-93 | Any sequence of events keeps `Wf`. |
| `App.ReachableWf` | src/App.jsx:72-93 | Every state reachable from a fresh page satisfies `Wf`. |
| `App.OtpSignsInCapturedDetails` | src/App.jsx:309-320 | In any reachable state where the OTP form is on screen, submitting it signs in a user: the captured details, never null. |
| `App.SignUpRunsDeferredAction` | src/App.jsx:95-140 | With nobody signed in, the following sequence signs in the entered details under the feature's role: request a protected feature, enter details, submit any code. The feature then runs once and the listing queues are untouched. Requesting it again is a no-op. |
| `App.DeferredActionNotRechecked` | src/App.jsx:103-137 | A seller-only action deferred by a visitor who then signs up as a buyer still runs at login. A signed-in buyer asking for the same action gets nothing. |

## Left out

- Rendering and styling: every JSX component and the SEO metadata. These are presentation with nothing to state.
- The mobile menu's open/close flag (`setIsMenuOpen`), which the record does not hold. It only decides whether the menu markup is drawn. The menu's buttons are modelled by the events they share with the desktop bar.
- The hosted-database insert in `handleLoginSuccess`, the debug page that lists buyers, and the database client set-up. These are network I/O and environment configuration. Only the table-name choice is kept, as `App.InsertTable`.
- The authentication-provider bootstrap in `src/main.jsx`, which wraps a third-party SDK.
- `formatCurrency`, because it delegates to locale formatting in `Intl.NumberFormat`.
- `Math.random()` ids are replaced by a caller-supplied `id`, and the `toLocaleDateString()` timestamp is omitted. Both depend on randomness or a clock.
- Browser `File` / `FileList` objects. The video is its optional file name and the photos are the optional length of the chosen list.
- `alert` messages, `preventDefault`, and React batching and closure staleness. Each handler is one sequential transition.
- `selectedProperty`, the inquiry form's contents and the featured-listings slice on the home page. These only choose what to display.
- The unused mock pending listing.
- The browser's built-in form checks (`required`, `type="number"`, `type="email"`). In the page they block `onSubmit` until every control is filled and valid, so for example the initial post-property form never reaches `handleSubmit`. The handlers (`App.RequestOtp`, `App.Login`, `Submission.Submit`) are modelled for any input, which is a superset of what the page passes them.
- JsNumber.ParseInt: results are exact integers. The rounding to a double of digit strings whose value exceeds 2^53, and the distinction between `-0` and `0`, are not modelled. No use in the application depends on the sign of zero.
- App.LoginSuccess: the handler is `async`, and it awaits the table insert before it runs and clears the deferred action. The model applies the handler as one atomic step. In the page, the window during that await has two consequences the model does not represent:
  - a rendered state with a user set while the deferred action is still pending, which `App.Wf` rules out only within the model;
  - a logout and fresh sign-in inside the window, which would let the second login run the same deferred action again, so "exactly once" holds only in the model.
- App.Step: events are applied whether or not the page currently shows the control that triggers them. Rendering guards are modelled only where a property needs them (`App.OtpFormShown`). `Navigate` events may also target any view. The page itself reaches the posting view only through the role gate, and the admin view only together with the admin toggle.

=== FILE: app.dfy ===
/**
 * The application state of `App` (src/App.jsx) and its event handlers, each a
 * pure transition that applies the handler's `setX` calls to a record in
 * source order. The deferred-action closures become the `Action` datatype.
 */
module App {
  import opened Wrappers
  import opened Listings
  import opened Moderation
  import opened Submission
  import Sequences

  datatype Role = Buyer | Seller

  /** A session user: the details captured at sign-up (or the fixed returning user) and the role. */
  datatype User = User(name: string, phone: string, email: string, role: Role)

  datatype View = Home | Listing | Details | Post | HowItWorks | Benefits | Faq | Admin

  datatype AuthMode = SignUp | LogIn

  /**
   * The closures handed to `handleProtectedAction`. The page passes exactly three
   * (action, role) pairs: `GoTo(Listing)` for a buyer, `GoTo(Post)` for a seller and
   * `OpenInquiry` for a buyer; `Protected` events admit any pair, a superset of these.
   */
  datatype Action =
    | GoTo(target: View)   // () => setView(target)
    | OpenInquiry          // () => { setShowInquiryModal(true); setInquirySent(false); }

  datatype State = State(
    view: View,
    filters: Filters,
    showInquiryModal: bool,
    inquirySent: bool,
    user: Option<User>,
    showAuthModal: bool,
    authMode: AuthMode,
    authTargetRole: Role,
    pendingAction: Option<Action>,
    otpSent: bool,
    signupData: Option<User>,
    active: seq<Property>,
    pending: seq<Property>,
    isAdmin: bool)

  /** The state of a fresh page: nobody signed in, both listing queues empty. */
  const Init: State := State(
    view := Home, filters := Filters(All, All), showInquiryModal := false, inquirySent := false,
    user := None, showAuthModal := false, authMode := SignUp, authTargetRole := Buyer,
    pendingAction := None, otpSent := false, signupData := None,
    active := [], pending := [], isAdmin := false)

  /**
   * What every state reachable in this model satisfies, where each handler is one
   * atomic step: the OTP step is only ever shown with captured sign-up details, and
   * a deferred action never outlives a login. (In the page itself the login handler
   * awaits the table insert before running the deferred action, so states in that
   * window are not represented here.)
   */
  predicate Wf(s: State)
  {
    && (s.otpSent ==> s.signupData.Some?)
    && (s.pendingAction.Some? ==> s.user.None?)
  }

  /** Invoking one of the closures. */
  function RunAction(s: State, a: Action): (t: State)
    ensures t.(view := s.view, showInquiryModal := s.showInquiryModal, inquirySent := s.inquirySent) == s
    ensures a.GoTo? ==> t.view == a.target && t.showInquiryModal == s.showInquiryModal && t.inquirySent == s.inquirySent
    ensures a.OpenInquiry? ==> t.view == s.view && t.showInquiryModal && !t.inquirySent
  {
    match a
    case GoTo(v) => s.(view := v)
    case OpenInquiry => s.(showInquiryModal := true, inquirySent := false)
  }

  /**
   * `handleProtectedAction(action, role)`: a signed-in user of another role gets
   * nothing; one of the role gets the action; with nobody signed in the action
   * is deferred and the sign-up dialog opens for the role.
   */
  function ProtectedAction(s: State, a: Action, role: Role): (t: State)
    ensures s.user.Some? && s.user.value.role != role ==> t == s
    ensures s.user.Some? && s.user.value.role == role ==> t == RunAction(s, a)
    ensures s.user.None? ==>
      && t.pendingAction == Some(a) && t.authTargetRole == role && t.authMode == SignUp
      && !t.otpSent && t.showAuthModal
      && t.(pendingAction := s.pendingAction, authTargetRole := s.authTargetRole, authMode := s.authMode,
            otpSent := s.otpSent, showAuthModal := s.showAuthModal) == s
  {
    match s.user
    case Some(u) =>
      if u.role != role then s else RunAction(s, a)
    case None =>
      s.(pendingAction := Some(a), authTargetRole := role, authMode := SignUp,
         otpSent := false, showAuthModal := true)
  }

  /**
   * The table the sign-in row is inserted into: "buyers" exactly for a buyer.
   * With no user the `userData.type` lookup throws and is caught, so no table is chosen.
   */
  function InsertTable(userData: Option<User>): (table: Option<string>)
    ensures userData.None? <==> table.None?
    ensures table == Some("buyers") <==> userData.Some? && userData.value.role == Buyer
    ensures table == Some("sellers") <==> userData.Some? && userData.value.role == Seller
  {
    match userData
    case None => None
    case Some(u) => Some(if u.role == Buyer then "buyers" else "sellers")
  }

  /**
   * `handleLoginSuccess(userData)`: sign the user in, close the dialog, clear the
   * OTP step, then run the deferred action, if any, and forget it. The table
   * choice is `InsertTable(userData)`; the insert itself changes no modelled state.
   */
  function LoginSuccess(s: State, userData: Option<User>): (t: State)
    ensures t.user == userData && !t.showAuthModal && !t.otpSent && t.signupData.None?
    ensures t.pendingAction.None?
    ensures t.active == s.active && t.pending == s.pending && t.filters == s.filters
    ensures t.authMode == s.authMode && t.authTargetRole == s.authTargetRole && t.isAdmin == s.isAdmin
    ensures s.pendingAction.None? ==>
      t.view == s.view && t.showInquiryModal == s.showInquiryModal && t.inquirySent == s.inquirySent
    ensures s.pendingAction.Some? ==>
      t == RunAction(s.(user := userData, showAuthModal := false, otpSent := false,
                         signupData := None, pendingAction := None), s.pendingAction.value)
  {
    var signedIn := s.(user := userData, showAuthModal := false, otpSent := false, signupData := None);
    match s.pendingAction
    case None => signedIn
    case Some(a) => RunAction(signedIn, a).(pendingAction := None)
  }

  /** `handleRequestOtp`: capture the entered details under the dialog's role and show the OTP step. */
  function RequestOtp(s: State, name: string, phone: string, email: string): (t: State)
    ensures t.signupData == Some(User(name, phone, email, s.authTargetRole)) && t.otpSent
    ensures t.(signupData := s.signupData, otpSent := s.otpSent) == s
  {
    s.(signupData := Some(User(name, phone, email, s.authTargetRole)), otpSent := true)
  }

  /** `handleVerifyOtp`: `handleLoginSuccess` on the captured details, whatever code was typed. */
  function VerifyOtp(s: State, code: string): (t: State)
    ensures t.user == s.signupData
    ensures !t.showAuthModal && !t.otpSent && t.signupData.None? && t.pendingAction.None?
    ensures t.active == s.active && t.pending == s.pending && t.filters == s.filters
    ensures t.authMode == s.authMode && t.authTargetRole == s.authTargetRole && t.isAdmin == s.isAdmin
    ensures s.pendingAction.None? ==>
      t.view == s.view && t.showInquiryModal == s.showInquiryModal && t.inquirySent == s.inquirySent
    ensures s.pendingAction.Some? ==>
      t == RunAction(s.(user := s.signupData, showAuthModal := false, otpSent := false,
                         signupData := None, pendingAction := None), s.pendingAction.value)
  {
    LoginSuccess(s, s.signupData)
  }

  const ReturningUserName: string := "Returning User"
  const ReturningUserPhone: string := "+91 98765 43210"
  const ReturningUserEmail: string := "user@example.com"

  /** `handleLogin`: `handleLoginSuccess` on a fixed returning user under the dialog's role; the typed phone is not used. */
  function Login(s: State, phone: string): (t: State)
    ensures t.user == Some(User(ReturningUserName, ReturningUserPhone, ReturningUserEmail, s.authTargetRole))
    ensures !t.showAuthModal && !t.otpSent && t.signupData.None? && t.pendingAction.None?
    ensures t.active == s.active && t.pending == s.pending && t.filters == s.filters
    ensures t.authMode == s.authMode && t.authTargetRole == s.authTargetRole && t.isAdmin == s.isAdmin
    ensures s.pendingAction.None? ==>
      t.view == s.view && t.showInquiryModal == s.showInquiryModal && t.inquirySent == s.inquirySent
    ensures s.pendingAction.Some? ==>
      t == RunAction(s.(user := t.user, showAuthModal := false, otpSent := false,
                         signupData := None, pendingAction := None), s.pendingAction.value)
  {
    LoginSuccess(s, Some(User(ReturningUserName, ReturningUserPhone, ReturningUserEmail, s.authTargetRole)))
  }

  /** `handleLogout`: sign out and go home; the listings and the dialog state are kept. */
  function Logout(s: State): (t: State)
    ensures t.user.None? && t.view == Home
    ensures t.(user := s.user, view := s.view) == s
  {
    s.(user := None, view := Home)
  }

  /** The navigation bar's "Sign Up Buyer" / "Sign Up Seller" buttons. */
  function OpenSignup(s: State, role: Role): (t: State)
    ensures t.authTargetRole == role && t.authMode == SignUp && !t.otpSent && t.showAuthModal
    ensures t.(authTargetRole := s.authTargetRole, authMode := s.authMode, otpSent := s.otpSent,
               showAuthModal := s.showAuthModal) == s
  {
    s.(authTargetRole := role, authMode := SignUp, otpSent := false, showAuthModal := true)
  }

  /** The dialog's "Login Here" / "Sign Up Here" switch. */
  function ToggleAuthMode(s: State): (t: State)
    ensures t.authMode != s.authMode && !t.otpSent
    ensures t.(authMode := s.authMode, otpSent := s.otpSent) == s
  {
    s.(authMode := if s.authMode == SignUp then LogIn else SignUp, otpSent := false)
  }

  /**
   * `approveProperty(prop)`: `prop` goes to the end of the active list and every
   * pending entry with its id leaves the pending list; nothing else changes.
   */
  function ApproveProperty(s: State, prop: Property): (t: State)
    ensures t.active == s.active + [prop]
    ensures forall p | p in t.pending :: p.id != prop.id
    ensures Sequences.IsSubsequence(t.pending, s.pending)
    ensures forall i | 0 <= i < |s.pending| :: s.pending[i].id != prop.id ==> s.pending[i] in t.pending
    ensures t.pending == WithoutId(s.pending, prop.id)
    ensures t.(active := s.active, pending := s.pending) == s
  {
    s.(active := s.active + [prop], pending := WithoutId(s.pending, prop.id))
  }

  /** `rejectProperty(id)`: every pending entry with `id` is dropped; nothing else changes. */
  function RejectProperty(s: State, id: int): (t: State)
    ensures forall p | p in t.pending :: p.id != id
    ensures Sequences.IsSubsequence(t.pending, s.pending)
    ensures forall i | 0 <= i < |s.pending| :: s.pending[i].id != id ==> s.pending[i] in t.pending
    ensures t.pending == WithoutId(s.pending, id)
    ensures (forall p | p in s.pending :: p.id != id) ==> t == s
    ensures t.(pending := s.pending) == s
  {
    s.(pending := WithoutId(s.pending, id))
  }

  /**
   * `PostProperty.handleSubmit`: with both uploads present the new listing joins
   * the end of the pending list and the page returns home; otherwise nothing changes.
   */
  function SubmitProperty(s: State, form: ListingForm, id: int): (t: State)
    ensures Submit(form, id).Failure? ==> t == s
    ensures Submit(form, id).Success? ==>
      && t.pending == s.pending + [Submit(form, id).value]
      && t.view == Home
      && t.(pending := s.pending, view := s.view) == s
    ensures |t.pending| == |s.pending| || |t.pending| == |s.pending| + 1
  {
    match Submit(form, id)
    case Failure(_) => s
    case Success(p) => s.(pending := s.pending + [p], view := Home)
  }

  /** The "Available Properties" page: sellers get a notice instead of listings. */
  function VisibleListings(s: State): (r: Option<seq<Property>>)
    ensures r.None? <==> s.user.Some? && s.user.value.role == Seller
    ensures r.Some? ==> r.value == FilterListings(s.active, s.filters)
    ensures r.Some? ==> Sequences.IsSubsequence(r.value, s.active)
    ensures r.Some? && s.filters == Filters(All, All) ==> r.value == s.active
  {
    if s.user.Some? && s.user.value.role == Seller then None
    else Some(FilterListings(s.active, s.filters))
  }

  /**
   * A user interaction, and the handler it triggers. `Navigate` admits every view,
   * a superset of the page's direct `setView` calls: no control sets `Post` without
   * going through `handleProtectedAction`, nor `Admin` without toggling `isAdmin`.
   */
  datatype Event =
    | Navigate(v: View)
    | Protected(a: Action, role: Role)
    | SignUpButton(role: Role)
    | CloseAuthModal
    | SwitchAuthMode
    | ChangeDetails
    | SubmitDetails(name: string, phone: string, email: string)
    | SubmitOtp(code: string)
    | SubmitLogin(phone: string)
    | LogoutButton
    | SetCity(city: string)
    | SetBhk(bhk: string)
    | SubmitListing(form: ListingForm, id: int)
    | Approve(prop: Property)
    | Reject(id: int)
    | AdminLink
    | CloseInquiry
    | SendInquiry

  /** Applies one event's handler. Every handler keeps `Wf`. */
  function Step(s: State, e: Event): (t: State)
    ensures Wf(s) ==> Wf(t)
  {
    match e
    case Navigate(v) => s.(view := v)
    case Protected(a, role) => ProtectedAction(s, a, role)
    case SignUpButton(role) => OpenSignup(s, role)
    case CloseAuthModal => s.(showAuthModal := false)
    case SwitchAuthMode => ToggleAuthMode(s)
    case ChangeDetails => s.(otpSent := false)
    case SubmitDetails(name, phone, email) => RequestOtp(s, name, phone, email)
    case SubmitOtp(code) => VerifyOtp(s, code)
    case SubmitLogin(phone) => Login(s, phone)
    case LogoutButton => Logout(s)
    case SetCity(city) => s.(filters := s.filters.(city := city))
    case SetBhk(bhk) => s.(filters := s.filters.(bhk := bhk))
    case SubmitListing(form, id) => SubmitProperty(s, form, id)
    case Approve(prop) => ApproveProperty(s, prop)
    case Reject(id) => RejectProperty(s, id)
    case AdminLink => s.(isAdmin := !s.isAdmin, view := Admin)
    case CloseInquiry => s.(showInquiryModal := false)
    case SendInquiry => s.(inquirySent := true)
  }

  /** Applies a sequence of events in order. */
  function Run(s: State, events: seq<Event>): (t: State)
    ensures Wf(s) ==> Wf(t)
    decreases |events|
  {
    if |events| == 0 then s else Run(Step(s, events[0]), events[1..])
  }

  /** Every state the page can reach from a fresh load satisfies `Wf`. */
  lemma ReachableWf(events: seq<Event>)
    ensures Wf(Run(Init, events))
  {
  }

  /** The OTP form is on screen. */
  predicate OtpFormShown(s: State)
  {
    s.showAuthModal && s.authMode == SignUp && s.otpSent
  }

  /** Submitting the OTP form, reached from a fresh load, always signs in the captured details. */
  lemma OtpSignsInCapturedDetails(events: seq<Event>, code: string)
    requires OtpFormShown(Run(Init, events))
    ensures VerifyOtp(Run(Init, events), code).user.Some?
    ensures VerifyOtp(Run(Init, events), code).user == Run(Init, events).signupData
  {
    ReachableWf(events);
  }

  /** The typed code plays no part: any two codes give the same state. */
  lemma OtpCodeIgnored(s: State, code1: string, code2: string)
    ensures VerifyOtp(s, code1) == VerifyOtp(s, code2)
  {
  }

  /**
   * The sign-up path for a protected feature: with nobody signed in, asking for the
   * feature, entering details and submitting any code signs in those details under
   * the feature's role and runs the feature once; the listing queues are untouched,
   * and asking for the feature again changes nothing more.
   */
  lemma SignUpRunsDeferredAction(s: State, a: Action, role: Role,
                                 name: string, phone: string, email: string, code: string)
    requires s.user.None?
    ensures var t := VerifyOtp(RequestOtp(ProtectedAction(s, a, role), name, phone, email), code);
      && t.user == Some(User(name, phone, email, role))
      && t.pendingAction.None? && !t.showAuthModal && !t.otpSent
      && t.view == (if a.GoTo? then a.target else s.view)
      && (a.OpenInquiry? ==> t.showInquiryModal && !t.inquirySent)
      && t.active == s.active && t.pending == s.pending
      && ProtectedAction(t, a, role) == t
  {
  }

  /** A second login success finds no deferred action: the action ran at most once. */
  lemma LoginSuccessOnce(s: State, userData: Option<User>)
    ensures LoginSuccess(LoginSuccess(s, userData), userData) == LoginSuccess(s, userData)
  {
  }

  /**
   * The deferred action is not checked against the role at sign-in: a seller-only
   * action deferred by a visitor who then signs up as a buyer still runs, although
   * the same request from a signed-in buyer does nothing.
   */
  lemma DeferredActionNotRechecked()
    ensures var t := Run(Init, [Protected(GoTo(Post), Seller), CloseAuthModal, SignUpButton(Buyer),
                                SubmitDetails("Asha", "+91 90000 00000", "asha@example.com"),
                                SubmitOtp("0000")]);
      && t.user.Some? && t.user.value.role == Buyer
      && t.view == Post
      && ProtectedAction(t.(view := Home), GoTo(Post), Seller) == t.(view := Home)
  {
    var s1 := Step(Init, Protected(GoTo(Post), Seller));
    var s2 := Step(s1, CloseAuthModal);
    var s3 := Step(s2, SignUpButton(Buyer));
    var s4 := Step(s3, SubmitDetails("Asha", "+91 90000 00000", "asha@example.com"));
    var s5 := Step(s4, SubmitOtp("0000"));
    assert s5.view == Post && s5.user.value.role == Buyer;
    assert Run(s5, []) == s5;
    assert Run(Init, [Protected(GoTo(Post), Seller), CloseAuthModal, SignUpButton(Buyer),
                      SubmitDetails("Asha", "+91 90000 00000", "asha@example.com"),
                      SubmitOtp("0000")]) == s5;
  }

  /** Rejecting an id twice equals rejecting it once. */
  lemma RejectTwice(s: State, id: int)
    ensures RejectProperty(RejectProperty(s, id), id) == RejectProperty(s, id)
  {
  }

  /** Rejections of two ids commute. */
  lemma RejectCommutes(s: State, a: int, b: int)
    ensures RejectProperty(RejectProperty(s, a), b) == RejectProperty(RejectProperty(s, b), a)
  {
    WithoutIdCommutes(s.pending, a, b);
  }

  /**
   * Approving a pending listing whose id is unique moves it: the pending list loses
   * exactly that listing, the active list gains it, and no listing appears or vanishes.
   */
  lemma ApproveMovesListing(s: State, prop: Property)
    requires UniqueIds(s.pending) && prop in s.pending
    ensures |ApproveProperty(s, prop).pending| == |s.pending| - 1
    ensures multiset(ApproveProperty(s, prop).pending) + multiset(ApproveProperty(s, prop).active)
         == multiset(s.pending) + multiset(s.active)
  {
    WithoutIdRemovesOne(s.pending, prop);
  }

  /** An approved listing shows up at the end of the filtered page exactly when it matches the filters. */
  lemma ApprovedListingVisible(s: State, prop: Property)
    requires VisibleListings(s).Some?
    ensures VisibleListings(ApproveProperty(s, prop)) ==
      Some(VisibleListings(s).value + (if Matches(prop, s.filters) then [prop] else []))
  {
    FilterListingsAppend(s.active, prop, s.filters);
  }
}

=== FILE: js_number.dfy ===
/**
 * The slice of JavaScript number semantics the application relies on:
 * `parseInt` on form strings, strict equality `===`, the comparison `>`,
 * `Math.ceil(x / 2)` and the `x || d` default, each over numbers that may be NaN.
 *
 * Every number here comes out of `parseInt`, so it is an integer or NaN.
 * Negative zero is folded into zero: all the operations below treat the two alike.
 */
module JsNumber {

  /** A Number produced by `parseInt`: an integer or NaN. */
  datatype Num = Finite(value: int) | NaN

  /** StrWhiteSpaceChar of ECMAScript: WhiteSpace (including every Zs space) and LineTerminator. */
  predicate IsStrWhiteSpace(c: char)
  {
    || c == '\t' || c == '\n' || c == '\U{000B}' || c == '\U{000C}' || c == '\r'
    || c == ' ' || c == '\U{00A0}' || c == '\U{1680}'
    || ('\U{2000}' <= c <= '\U{200A}')
    || c == '\U{2028}' || c == '\U{2029}' || c == '\U{202F}' || c == '\U{205F}'
    || c == '\U{3000}' || c == '\U{FEFF}'
  }

  /** Drops the leading white space of `s`. */
  function TrimStart(s: string): (t: string)
    ensures |t| <= |s| && t == s[|s| - |t|..]
    ensures forall i | 0 <= i < |s| - |t| :: IsStrWhiteSpace(s[i])
    ensures |t| == 0 || !IsStrWhiteSpace(t[0])
  {
    if |s| > 0 && IsStrWhiteSpace(s[0]) then TrimStart(s[1..]) else s
  }

  predicate IsDecimalDigit(c: char)
  {
    '0' <= c <= '9'
  }

  /** Is `c` a digit of the given radix (10 or 16, the only two `parseInt` picks without an explicit radix)? */
  predicate IsRadixDigit(c: char, radix: nat)
  {
    || IsDecimalDigit(c)
    || (radix == 16 && (('a' <= c <= 'f') || ('A' <= c <= 'F')))
  }

  function DigitValue(c: char): (d: nat)
    requires IsRadixDigit(c, 16)
    ensures d < 16
    ensures IsDecimalDigit(c) <==> d < 10
  {
    if IsDecimalDigit(c) then c as int - '0' as int
    else if 'a' <= c <= 'f' then c as int - 'a' as int + 10
    else c as int - 'A' as int + 10
  }

  /** The longest prefix of `s` made of digits of `radix`. */
  function DigitPrefix(s: string, radix: nat): (z: string)
    ensures |z| <= |s| && z == s[..|z|]
    ensures forall i | 0 <= i < |z| :: IsRadixDigit(z[i], radix)
    ensures |z| < |s| ==> !IsRadixDigit(s[|z|], radix)
  {
    if |s| > 0 && IsRadixDigit(s[0], radix) then [s[0]] + DigitPrefix(s[1..], radix) else []
  }

  /** The value of a digit string read most significant digit first. */
  function DigitsValue(z: string, radix: nat): nat
    requires radix == 10 || radix == 16
    requires forall i | 0 <= i < |z| :: IsRadixDigit(z[i], radix)
  {
    if |z| == 0 then 0
    else
      var last := z[|z| - 1];
      assert IsRadixDigit(last, radix);
      DigitsValue(z[..|z| - 1], radix) * radix + DigitValue(last)
  }

  /**
   * The digits part of `parseInt`, after white space and sign: a `0x`/`0X`
   * prefix selects radix 16, then the longest run of digits is read;
   * no digit at all gives NaN and trailing characters are ignored.
   */
  function ParseMagnitude(u: string): (r: Num)
    ensures r.Finite? ==> r.value >= 0
    ensures |u| == 0 ==> r == NaN
    ensures |u| > 0 && !IsRadixDigit(u[0], 10) ==> r == NaN
    ensures |u| > 0 && IsDecimalDigit(u[0]) && !(|u| >= 2 && u[0] == '0' && (u[1] == 'x' || u[1] == 'X')) ==>
      r.Finite?
  {
    var hex := |u| >= 2 && u[0] == '0' && (u[1] == 'x' || u[1] == 'X');
    var radix := if hex then 16 else 10;
    var z := DigitPrefix(if hex then u[2..] else u, radix);
    if |z| == 0 then NaN else Finite(DigitsValue(z, radix))
  }

  /** `parseInt` once leading white space is gone: an optional sign, then the magnitude. */
  function ParseSigned(t: string): (r: Num)
    ensures |t| > 0 && t[0] == '+' ==> r == ParseMagnitude(t[1..])
    ensures |t| > 0 && t[0] == '-' ==>
      (r.NaN? <==> ParseMagnitude(t[1..]).NaN?) && (r.Finite? ==> r.value == -ParseMagnitude(t[1..]).value)
    ensures |t| > 0 && t[0] != '-' && t[0] != '+' ==> r == ParseMagnitude(t)
  {
    if |t| > 0 && t[0] == '-' then
      match ParseMagnitude(t[1..])
      case NaN => NaN
      case Finite(m) => Finite(-m)
    else if |t| > 0 && t[0] == '+' then ParseMagnitude(t[1..])
    else ParseMagnitude(t)
  }

  /**
   * `parseInt(s)` with no radix: leading white space is skipped (`ParseIntSkipsWhiteSpace`); a string then
   * starting with neither a sign nor a digit is NaN; one starting with a decimal
   * digit (and no hex prefix) is a non-negative number; a sign negates or keeps
   * the magnitude that follows it.
   */
  function ParseInt(s: string): (r: Num)
    ensures |TrimStart(s)| == 0 ==> r == NaN
    ensures |s| > 0 && !IsStrWhiteSpace(s[0]) && !IsDecimalDigit(s[0]) && s[0] != '-' && s[0] != '+' ==> r == NaN
    ensures |s| > 0 && s[0] == '+' ==> r == ParseMagnitude(s[1..])
    ensures |s| > 0 && s[0] == '-' ==>
      (r.NaN? <==> ParseMagnitude(s[1..]).NaN?) && (r.Finite? ==> r.value == -ParseMagnitude(s[1..]).value)
    ensures |s| > 0 && IsDecimalDigit(s[0]) && !(|s| >= 2 && s[0] == '0' && (s[1] == 'x' || s[1] == 'X')) ==>
      r.Finite? && r.value >= 0
  {
    assert |s| > 0 && !IsStrWhiteSpace(s[0]) ==> TrimStart(s) == s;
    ParseSigned(TrimStart(s))
  }

  /** Leading white space never changes what `parseInt` reads. */
  lemma {:induction false} ParseIntSkipsWhiteSpace(w: string, s: string)
    requires forall i | 0 <= i < |w| :: IsStrWhiteSpace(w[i])
    ensures ParseInt(w + s) == ParseInt(s)
  {
    if |w| > 0 {
      assert (w + s)[1..] == w[1..] + s;
      assert TrimStart(w + s) == TrimStart(w[1..] + s);
      ParseIntSkipsWhiteSpace(w[1..], s);
    } else {
      assert w + s == s;
    }
  }

  function DigitChar(d: nat): (c: char)
    requires d < 10
    ensures IsDecimalDigit(c) && c as int - '0' as int == d
  {
    ('0' as int + d) as char
  }

  /** The plain decimal rendering of a non-negative integer: digits without leading zeros. */
  function NatToDecimal(n: nat): (s: string)
    ensures |s| > 0
    ensures forall i | 0 <= i < |s| :: IsDecimalDigit(s[i])
    ensures n > 0 ==> s[0] != '0'
  {
    if n < 10 then [DigitChar(n)] else NatToDecimal(n / 10) + [DigitChar(n % 10)]
  }

  /** The plain decimal rendering of an integer, which is `String(n)` for |n| < 10^21, e.g. the value of a `<select>` option. */
  function ToDecimal(n: int): (s: string)
    ensures |s| > 0 && (s[0] == '-' || IsDecimalDigit(s[0]))
  {
    if n < 0 then "-" + NatToDecimal(-n) else NatToDecimal(n)
  }

  /** JavaScript `a === b` on numbers: NaN equals nothing, itself included. */
  predicate StrictEquals(a: Num, b: Num)
  {
    a.Finite? && b.Finite? && a.value == b.value
  }

  /** JavaScript `a > b` against an integer literal: false whenever `a` is NaN. */
  predicate GreaterThan(a: Num, b: int)
  {
    a.Finite? && a.value > b
  }

  /** JavaScript `Math.ceil(a / 2)`: the least integer not below half of `a`, or NaN. */
  function CeilHalf(a: Num): (r: Num)
    ensures a.NaN? <==> r.NaN?
    ensures a.Finite? ==> 2 * r.value >= a.value && 2 * (r.value - 1) < a.value
  {
    match a
    case NaN => NaN
    case Finite(v) => Finite((v + 1) / 2)
  }

  /** JavaScript `a || d`: `a` unless it is falsy (0 or NaN), then `d`. */
  function OrDefault(a: Num, d: int): (r: int)
    ensures StrictEquals(a, Finite(0)) || a.NaN? ==> r == d
    ensures a.Finite? && a.value != 0 ==> r == a.value
  {
    if a.Finite? && a.value != 0 then a.value else d
  }

  lemma {:induction false} DecimalDigitsValue(n: nat)
    ensures DigitsValue(NatToDecimal(n), 10) == n
  {
    var s := NatToDecimal(n);
    if n >= 10 {
      var front := NatToDecimal(n / 10);
      assert s == front + [DigitChar(n % 10)];
      assert s[..|s| - 1] == front;
      DecimalDigitsValue(n / 10);
    }
  }

  /** A string made only of digits is its own longest digit prefix. */
  lemma DigitPrefixOfDigits(s: string, radix: nat)
    requires forall i | 0 <= i < |s| :: IsRadixDigit(s[i], radix)
    ensures DigitPrefix(s, radix) == s
  {
  }

  /** An all-digit string without a leading zero reads as the value of its digits. */
  lemma MagnitudeOfDigits(t: string)
    requires |t| > 0
    requires forall i | 0 <= i < |t| :: IsDecimalDigit(t[i])
    requires |t| >= 2 ==> t[0] != '0'
    ensures ParseMagnitude(t) == Finite(DigitsValue(t, 10))
  {
    assert !(|t| >= 2 && t[0] == '0');
    DigitPrefixOfDigits(t, 10);
  }

  /** `parseInt(String(n)) === n`: decimal rendering and parsing are inverse. */
  lemma ParseIntOfDecimal(n: int)
    ensures ParseInt(ToDecimal(n)) == Finite(n)
  {
    var s := ToDecimal(n);
    assert !IsStrWhiteSpace(s[0]);
    assert TrimStart(s) == s;
    if n < 0 {
      var t := NatToDecimal(-n);
      assert s == "-" + t && s[1..] == t;
      DecimalDigitsValue(-n);
      MagnitudeOfDigits(t);
      assert ParseMagnitude(s[1..]) == Finite(-n);
    } else {
      assert s[0] != '-' && s[0] != '+';
      DecimalDigitsValue(n);
      MagnitudeOfDigits(s);
    }
  }

  /** A digit run followed by a non-digit (or nothing) is exactly the longest digit prefix. */
  lemma {:induction false} DigitPrefixStopsAtNonDigit(d: string, rest: string, radix: nat)
    requires forall i | 0 <= i < |d| :: IsRadixDigit(d[i], radix)
    requires |rest| == 0 || !IsRadixDigit(rest[0], radix)
    ensures DigitPrefix(d + rest, radix) == d
  {
    if |d| > 0 {
      assert (d + rest)[0] == d[0];
      assert (d + rest)[1..] == d[1..] + rest;
      DigitPrefixStopsAtNonDigit(d[1..], rest, radix);
      assert [d[0]] + d[1..] == d;
    } else {
      assert d + rest == rest;
    }
  }

  /** The magnitude reader stops at the first non-digit after a decimal rendering. */
  lemma MagnitudeIgnoresTail(m: nat, rest: string)
    requires |rest| == 0 || !IsDecimalDigit(rest[0])
    requires m == 0 && |rest| > 0 ==> rest[0] != 'x' && rest[0] != 'X'
    ensures ParseMagnitude(NatToDecimal(m) + rest) == Finite(m)
  {
    var d := NatToDecimal(m);
    var u := d + rest;
    assert u[0] == d[0];
    assert !(|u| >= 2 && u[0] == '0' && (u[1] == 'x' || u[1] == 'X')) by {
      if |d| >= 2 {
        assert u[0] != '0';
      } else if |u| >= 2 {
        assert u[1] == rest[0];
      }
    }
    DigitPrefixStopsAtNonDigit(d, rest, 10);
    DecimalDigitsValue(m);
  }

  /** A signed decimal rendering followed by a non-digit tail: the sign step of `ParseIntIgnoresTail`. */
  /** With no white space in front, `parseInt` goes straight to the sign step. */
  lemma ParseIntNoWhiteSpace(s: string)
    requires |s| > 0 && !IsStrWhiteSpace(s[0])
    ensures ParseInt(s) == ParseSigned(s)
  {
    assert TrimStart(s) == s;
  }

  /** A minus sign in front of a magnitude that reads as `m` gives `-m`. */
  lemma SignedNegative(u: string, m: nat)
    requires ParseMagnitude(u) == Finite(m)
    ensures ParseSigned("-" + u) == Finite(-(m as int))
  {
    assert ("-" + u)[1..] == u;
  }

  /** A negative decimal rendering followed by a non-digit tail: the sign step of `ParseIntIgnoresTail`. */
  lemma NegativeIgnoresTail(n: int, rest: string)
    requires n < 0
    requires |rest| == 0 || !IsDecimalDigit(rest[0])
    ensures ParseInt(ToDecimal(n) + rest) == Finite(n)
  {
    var u := NatToDecimal(-n) + rest;
    assert ToDecimal(n) + rest == "-" + u;
    MagnitudeIgnoresTail(-n, rest);
    SignedNegative(u, -n);
    ParseIntNoWhiteSpace("-" + u);
  }

  /** A non-negative decimal rendering followed by a non-digit tail: the other step of `ParseIntIgnoresTail`. */
  lemma NonNegativeIgnoresTail(n: int, rest: string)
    requires n >= 0
    requires |rest| == 0 || !IsDecimalDigit(rest[0])
    requires n == 0 && |rest| > 0 ==> rest[0] != 'x' && rest[0] != 'X'
    ensures ParseInt(ToDecimal(n) + rest) == Finite(n)
  {
    var d := NatToDecimal(n);
    var s := d + rest;
    assert s[0] == d[0];
    ParseIntNoWhiteSpace(s);
    MagnitudeIgnoresTail(n, rest);
  }

  /**
   * `parseInt` reads the longest run of digits and ignores whatever follows it:
   * "1200.5" reads 1200 and "2.5e4" reads 2. A lone "0" followed by `x`/`X`
   * would start a hexadecimal literal instead, so that tail is excluded.
   */
  lemma ParseIntIgnoresTail(n: int, rest: string)
    requires |rest| == 0 || !IsDecimalDigit(rest[0])
    requires n == 0 && |rest| > 0 ==> rest[0] != 'x' && rest[0] != 'X'
    ensures ParseInt(ToDecimal(n) + rest) == Finite(n)
  {
    if n < 0 {
      NegativeIgnoresTail(n, rest);
    } else {
      NonNegativeIgnoresTail(n, rest);
    }
  }

  /** A string that does not start (after white space and sign) with a digit parses to NaN, e.g. the "All" sentinel. */
  lemma ParseIntOfWord(s: string)
    requires |s| > 0 && !IsStrWhiteSpace(s[0]) && !IsRadixDigit(s[0], 10)
    requires s[0] != '-' && s[0] != '+'
    ensures ParseInt(s) == NaN
  {
    assert TrimStart(s) == s;
  }
}

=== FILE: listings.dfy ===
/**
 * A rental listing, the brokerage fee charged on it, and the city / BHK
 * filter of the "Available Properties" page (src/App.jsx).
 */
module Listings {
  import opened JsNumber
  import Sequences

  /**
   * A listing. `rent`, `bhk` and `bathrooms` are the numbers `parseInt` and
   * `Math.ceil` produced from the form, so they may be NaN. `id` stands for the
   * random number the form draws.
   */
  datatype Property = Property(
    id: int,
    title: string,
    location: string,
    city: string,
    rent: Num,
    bhk: Num,
    bathrooms: Num,
    sqft: int,
    image: string,
    propertyType: string,
    amenities: seq<string>,
    video: string)

  const LowBrokerage: int := 12499
  const HighBrokerage: int := 16999
  /** Rents strictly above this pay the higher fee. */
  const BrokerageThreshold: int := 50000

  /** The fixed brokerage fee for a monthly rent (`getBrokerage`). */
  function Brokerage(rent: Num): (fee: int)
    ensures fee == LowBrokerage || fee == HighBrokerage
    ensures fee == HighBrokerage <==> rent.Finite? && rent.value > BrokerageThreshold
    ensures rent == Finite(BrokerageThreshold) ==> fee == LowBrokerage
  {
    if GreaterThan(rent, BrokerageThreshold) then HighBrokerage else LowBrokerage
  }

  /** A higher rent never pays a lower fee. */
  lemma BrokerageMonotone(a: int, b: int)
    requires a <= b
    ensures Brokerage(Finite(a)) <= Brokerage(Finite(b))
  {
  }

  /** The sentinel value of both `<select>` filters that disables the check. */
  const All: string := "All"

  /** The two `<select>` values of the listing page; both start as "All". */
  datatype Filters = Filters(city: string, bhk: string)

  predicate MatchesCity(p: Property, f: Filters)
  {
    f.city == All || p.city == f.city
  }

  /** `p.bhk === parseInt(filters.bhk)`, unless the filter is "All". */
  predicate MatchesBhk(p: Property, f: Filters)
  {
    f.bhk == All || StrictEquals(p.bhk, ParseInt(f.bhk))
  }

  /** Whether `p` passes both filters; a listing whose bhk is NaN passes only the "All" BHK filter. */
  predicate Matches(p: Property, f: Filters): (b: bool)
    ensures f == Filters(All, All) ==> b
    ensures b && f.city != All ==> p.city == f.city
    ensures b && f.bhk != All ==> p.bhk.Finite? && ParseInt(f.bhk) == p.bhk
    ensures p.bhk.NaN? && f.bhk != All ==> !b
    ensures (f.city == All || p.city == f.city) && (f.bhk == All || (p.bhk.Finite? && ParseInt(f.bhk) == p.bhk)) ==> b
  {
    MatchesCity(p, f) && MatchesBhk(p, f)
  }

  /** The listings shown for the current filters: `activeProperties.filter(...)`. */
  function FilterListings(ps: seq<Property>, f: Filters): (r: seq<Property>)
    ensures Sequences.IsSubsequence(r, ps)
    ensures forall p | p in r :: f.city == All || p.city == f.city
    ensures forall p | p in r :: f.bhk == All || (p.bhk.Finite? && p.bhk == ParseInt(f.bhk))
    ensures forall i | 0 <= i < |ps| :: Matches(ps[i], f) ==> ps[i] in r
    ensures |r| == Sequences.CountWhere(ps, (p: Property) => Matches(p, f))
    ensures f == Filters(All, All) ==> r == ps
  {
    var keep := (p: Property) => Matches(p, f);
    assert f == Filters(All, All) ==> Sequences.Filter(ps, keep) == ps by {
      if f == Filters(All, All) {
        Sequences.FilterAllKept(ps, keep);
      }
    }
    Sequences.Filter(ps, keep)
  }

  /** Choosing "k BHK" keeps exactly the listings whose bhk is the number k. */
  lemma FilterByBhk(ps: seq<Property>, city: string, k: int)
    ensures forall p | p in FilterListings(ps, Filters(city, ToDecimal(k))) :: p.bhk == Finite(k)
    ensures forall p | p in ps && MatchesCity(p, Filters(city, ToDecimal(k))) && p.bhk == Finite(k) ::
      p in FilterListings(ps, Filters(city, ToDecimal(k)))
  {
    ParseIntOfDecimal(k);
    var f := Filters(city, ToDecimal(k));
    assert f.bhk != All by { assert f.bhk[0] != All[0]; }
    forall p | p in ps && MatchesCity(p, f) && p.bhk == Finite(k)
      ensures p in FilterListings(ps, f)
    {
      var i :| 0 <= i < |ps| && ps[i] == p;
    }
  }

  /** A BHK filter that does not parse (other than "All") matches nothing: NaN equals no number. */
  lemma FilterByUnparsableBhk(ps: seq<Property>, f: Filters)
    requires f.bhk != All && ParseInt(f.bhk).NaN?
    ensures FilterListings(ps, f) == []
  {
    Sequences.FilterNoneKept(ps, (p: Property) => Matches(p, f));
  }

  /** Appending a listing extends the filtered view by that listing exactly when it matches. */
  lemma FilterListingsAppend(ps: seq<Property>, p: Property, f: Filters)
    ensures FilterListings(ps + [p], f) ==
      FilterListings(ps, f) + (if Matches(p, f) then [p] else [])
  {
    var keep := (q: Property) => Matches(q, f);
    Sequences.FilterAppend(ps, [p], keep);
    assert ([p])[1..] == [];
  }

  /** Re-applying the same filters to an already filtered list changes nothing. */
  lemma FilterListingsIdempotent(ps: seq<Property>, f: Filters)
    ensures FilterListings(FilterListings(ps, f), f) == FilterListings(ps, f)
  {
    Sequences.FilterIdempotent(ps, (p: Property) => Matches(p, f));
  }
}

=== FILE: moderation.dfy ===
/**
 * The admin moderation queue: removing every listing with a given id from a
 * list (`list.filter(p => p.id !== id)`), as approval and rejection both do.
 */
module Moderation {
  import opened Listings
  import Sequences

  /** The listings of `ps` whose id differs from `id`, in their original order. */
  function WithoutId(ps: seq<Property>, id: int): (r: seq<Property>)
    ensures Sequences.IsSubsequence(r, ps)
    ensures forall p | p in r :: p.id != id
    ensures forall i | 0 <= i < |ps| :: ps[i].id != id ==> ps[i] in r
    ensures |r| == Sequences.CountWhere(ps, (p: Property) => p.id != id)
    ensures (forall p | p in ps :: p.id != id) ==> r == ps
  {
    var keep := (p: Property) => p.id != id;
    assert (forall p | p in ps :: p.id != id) ==> Sequences.Filter(ps, keep) == ps by {
      if forall p | p in ps :: p.id != id {
        Sequences.FilterAllKept(ps, keep);
      }
    }
    Sequences.Filter(ps, keep)
  }

  /** Removing the same id twice equals removing it once. */
  lemma WithoutIdIdempotent(ps: seq<Property>, id: int)
    ensures WithoutId(WithoutId(ps, id), id) == WithoutId(ps, id)
  {
  }

  /** Removals of two ids may happen in either order. */
  lemma WithoutIdCommutes(ps: seq<Property>, a: int, b: int)
    ensures WithoutId(WithoutId(ps, a), b) == WithoutId(WithoutId(ps, b), a)
  {
    Sequences.FilterCommutes(ps, (p: Property) => p.id != a, (p: Property) => p.id != b);
  }

  /** No two listings of `ps` share an id. */
  predicate UniqueIds(ps: seq<Property>)
  {
    forall i, j | 0 <= i < j < |ps| :: ps[i].id != ps[j].id
  }

  /**
   * When ids are unique and `p` is in the list, removing `p.id` removes exactly `p`:
   * the list loses one occurrence of `p` and nothing else.
   */
  lemma {:induction false} WithoutIdRemovesOne(ps: seq<Property>, p: Property)
    requires UniqueIds(ps)
    requires p in ps
    ensures multiset(WithoutId(ps, p.id)) + multiset{p} == multiset(ps)
    ensures |WithoutId(ps, p.id)| == |ps| - 1
  {
    var keep := (q: Property) => q.id != p.id;
    assert ps == [ps[0]] + ps[1..];
    if ps[0] == p {
      assert forall q | q in ps[1..] :: q.id != p.id by {
        forall q | q in ps[1..] ensures q.id != p.id {
          var j :| 0 <= j < |ps[1..]| && ps[1..][j] == q;
          assert ps[j + 1] == q;
        }
      }
      Sequences.FilterAllKept(ps[1..], keep);
      assert WithoutId(ps, p.id) == ps[1..];
    } else {
      assert ps[0].id != p.id by {
        var k :| 0 <= k < |ps| && ps[k] == p;
      }
      assert UniqueIds(ps[1..]) by {
        forall i, j | 0 <= i < j < |ps[1..]| ensures ps[1..][i].id != ps[1..][j].id {
          assert ps[1..][i] == ps[i + 1] && ps[1..][j] == ps[j + 1];
        }
      }
      WithoutIdRemovesOne(ps[1..], p);
      assert WithoutId(ps, p.id) == [ps[0]] + WithoutId(ps[1..], p.id);
    }
  }
}

=== FILE: sequences.dfy ===
/**
 * `Array.prototype.filter` over immutable sequences, and the order-preserving
 * subsequence relation it establishes.
 */
module Sequences {

  /** `xs` is `ys` with some elements deleted and the rest kept in order. */
  predicate IsSubsequence<T(==)>(xs: seq<T>, ys: seq<T>)
    decreases |ys|
  {
    if |xs| == 0 then true
    else if |ys| == 0 then false
    else if xs[0] == ys[0] then IsSubsequence(xs[1..], ys[1..])
    else IsSubsequence(xs, ys[1..])
  }

  /** How many elements of `s` satisfy `keep`. */
  function CountWhere<T>(s: seq<T>, keep: T -> bool): (n: nat)
    ensures n <= |s|
  {
    if |s| == 0 then 0
    else (if keep(s[0]) then 1 else 0) + CountWhere(s[1..], keep)
  }

  /**
   * `s.filter(keep)`: the elements of `s` that satisfy `keep`, in their original order.
   * The contract determines the result: the only subsequence of `s` whose elements all
   * satisfy `keep` and whose length is the number of such elements.
   */
  function Filter<T(==)>(s: seq<T>, keep: T -> bool): (r: seq<T>)
    ensures IsSubsequence(r, s)
    ensures forall x | x in r :: keep(x)
    ensures forall i | 0 <= i < |s| :: keep(s[i]) ==> s[i] in r
    ensures |r| == CountWhere(s, keep)
  {
    if |s| == 0 then []
    else if keep(s[0]) then [s[0]] + Filter(s[1..], keep)
    else Filter(s[1..], keep)
  }

  /** Filtering distributes over concatenation. */
  lemma {:induction false} FilterAppend<T>(a: seq<T>, b: seq<T>, keep: T -> bool)
    ensures Filter(a + b, keep) == Filter(a, keep) + Filter(b, keep)
  {
    if |a| > 0 {
      assert (a + b)[1..] == a[1..] + b;
      FilterAppend(a[1..], b, keep);
    } else {
      assert a + b == b;
    }
  }

  /** When every element passes, filtering returns the input unchanged. */
  lemma {:induction false} FilterAllKept<T>(s: seq<T>, keep: T -> bool)
    requires forall x | x in s :: keep(x)
    ensures Filter(s, keep) == s
  {
    if |s| > 0 {
      assert forall x | x in s[1..] :: x in s;
      FilterAllKept(s[1..], keep);
    }
  }

  /** When no element passes, filtering returns the empty sequence. */
  lemma {:induction false} FilterNoneKept<T>(s: seq<T>, keep: T -> bool)
    requires forall x | x in s :: !keep(x)
    ensures Filter(s, keep) == []
  {
    if |s| > 0 {
      assert forall x | x in s[1..] :: x in s;
      FilterNoneKept(s[1..], keep);
    }
  }

  /** Filtering twice equals filtering once. */
  lemma FilterIdempotent<T>(s: seq<T>, keep: T -> bool)
    ensures Filter(Filter(s, keep), keep) == Filter(s, keep)
  {
    FilterAllKept(Filter(s, keep), keep);
  }

  /** Two filters may be applied in either order. */
  lemma {:induction false} FilterCommutes<T>(s: seq<T>, p: T -> bool, q: T -> bool)
    ensures Filter(Filter(s, p), q) == Filter(Filter(s, q), p)
  {
    if |s| > 0 {
      FilterCommutes(s[1..], p, q);
    }
  }
}

=== FILE: submission.dfy ===
/**
 * The "List Your Property" form (`PostProperty.handleSubmit`): presence checks
 * on the uploads, then the pending listing built from the form fields.
 */
module Submission {
  import opened Wrappers
  import opened JsNumber
  import opened Listings

  /**
   * The form's local state, as the raw strings its inputs hold. The video is
   * the chosen file's name, if any; the photos are the length of the chosen
   * file list, if a list was chosen at all.
   */
  datatype ListingForm = ListingForm(
    propertyType: string,
    city: string,
    locality: string,
    bhk: string,
    rent: string,
    sqft: string,
    description: string,
    video: Option<string>,
    photos: Option<nat>)

  /** The form as first rendered. */
  const InitialForm: ListingForm :=
    ListingForm("Apartment", "", "", "1", "", "", "", None, None)

  datatype SubmitError = MissingVideo | MissingPhotos

  const DefaultSqft: int := 800
  const ListingImage: string :=
    "https://images.unsplash.com/photo-1502672260266-1c1ef2d93688?ixlib=rb-4.0.3&auto=format&fit=crop&w=800&q=80"
  const DefaultAmenities: seq<string> := ["Gym", "Security"]

  /** JavaScript `a || b` on strings: `b` when `a` is empty. */
  function OrElse(a: string, b: string): (r: string)
    ensures a != "" ==> r == a
    ensures a == "" ==> r == b
    ensures r == "" <==> a == "" && b == ""
  {
    if a == "" then b else a
  }

  /** The record `handleSubmit` builds once the uploads are present. */
  function NewProperty(form: ListingForm, id: int, videoName: string): (p: Property)
    ensures p.id == id && p.video == videoName
    ensures p.city == form.city && p.propertyType == form.propertyType
    ensures p.location == form.locality + ", " + form.city
    ensures p.title == form.bhk + " BHK " + form.propertyType + " in " + OrElse(form.locality, form.city)
    ensures p.rent == ParseInt(form.rent) && p.bhk == ParseInt(form.bhk)
    ensures p.bhk.NaN? <==> p.bathrooms.NaN?
    ensures p.bhk.Finite? ==> 2 * p.bathrooms.value >= p.bhk.value > 2 * (p.bathrooms.value - 1)
    ensures p.sqft != 0
    ensures ParseInt(form.sqft).Finite? && ParseInt(form.sqft).value != 0 ==> p.sqft == ParseInt(form.sqft).value
    ensures ParseInt(form.sqft).NaN? || ParseInt(form.sqft) == Finite(0) ==> p.sqft == DefaultSqft
    ensures p.amenities == DefaultAmenities && p.image == ListingImage
  {
    var bhk := ParseInt(form.bhk);
    Property(
      id := id,
      title := form.bhk + " BHK " + form.propertyType + " in " + OrElse(form.locality, form.city),
      location := form.locality + ", " + form.city,
      city := form.city,
      rent := ParseInt(form.rent),
      bhk := bhk,
      bathrooms := CeilHalf(bhk),
      sqft := OrDefault(ParseInt(form.sqft), DefaultSqft),
      image := ListingImage,
      propertyType := form.propertyType,
      amenities := DefaultAmenities,
      video := videoName)
  }

  /**
   * Submitting the form: a missing video is reported first, then a missing or
   * empty photo list; otherwise the new listing.
   */
  function Submit(form: ListingForm, id: int): (r: Result<Property, SubmitError>)
    ensures r.Success? <==> form.video.Some? && form.photos.Some? && form.photos.value > 0
    ensures form.video.None? ==> r == Failure(MissingVideo)
    ensures form.video.Some? && (form.photos.None? || form.photos == Some(0)) ==> r == Failure(MissingPhotos)
    ensures r.Success? ==> r.value == NewProperty(form, id, form.video.value)
  {
    if form.video.None? then Failure(MissingVideo)
    else if form.photos.None? || form.photos.value == 0 then Failure(MissingPhotos)
    else Success(NewProperty(form, id, form.video.value))
  }

  /** The form as first shown cannot be submitted: no video has been chosen. */
  lemma InitialFormRejected(id: int)
    ensures Submit(InitialForm, id) == Failure(MissingVideo)
  {
  }

  /** Choosing "k BHK" gives a listing with k bedrooms and ceil(k/2) bathrooms. */
  lemma SubmittedBhk(form: ListingForm, id: int, videoName: string, k: int)
    requires form.bhk == ToDecimal(k)
    ensures NewProperty(form, id, videoName).bhk == Finite(k)
    ensures NewProperty(form, id, videoName).bathrooms == Finite((k + 1) / 2)
  {
    ParseIntOfDecimal(k);
  }
}

=== FILE: wrappers.dfy ===
/** Failure-carrying values shared by the other modules. */
module Wrappers {

  /** A value that may be absent: JavaScript's `null` / `undefined`. */
  datatype Option<+T> = None | Some(value: T)

  /** The outcome of an operation that either produces a value or reports why it did not. */
  datatype Result<+T, +E> = Success(value: T) | Failure(error: E)
}
